=== FILE: README.md ===
# Drawdown analysis of PyBacktester, modelled in Dafny

PyBacktester is the skeleton of an event-driven backtester: its data handler
is an abstract interface whose methods are not implemented, and its
portfolio module holds only imports and comments. Its one implemented
algorithm is `create_drawdowns` in its performance analytics: a single forward
pass over a cumulative profit-and-loss (PnL) curve that keeps a running
high-water mark (HWM), measures the drawdown below it at every step, counts
how many consecutive steps the curve has been in drawdown (the duration), and
returns the drawdown Series together with the maximum drawdown and the
maximum duration.

The project has five modules:

- `Options` (option.dfy): `Option`, where `None` stands for pandas' NaN:
  the maximum of an empty or all-NaN Series, and an entry of a Series that
  was created empty and never assigned.
- `Extrema` (extrema.dfy): the two-argument `max` and the maximum of a
  sequence, characterised as an upper bound that is attained.
- `Drawdowns` (drawdowns.dfy): the functional specification. `Hwm`,
  `Drawdown` and `Duration` are recursive functions of the curve and an
  index, and the lemmas state what they mean: the HWM is the running
  maximum, the drawdown is the deepest decline into a point, the duration is
  the length of the current run of positive drawdowns, and the maxima are
  the largest decline and the longest run.
- `Performance` (performance.dfy): `create_drawdowns` as the loop it is, a
  method over arrays whose invariants tie each filled entry to the
  specification, followed by the two maxima.
- `NanDurations` (nan_durations.dfy): the drawdown and duration Series as
  the source actually computes them, with NaN entries (see Findings).

Modelling decisions:

- PnL values are `int`. The pass uses only `max`, subtraction and a
  comparison with zero, so exact integers (think of scaled units such as
  cents) lose nothing that the algorithm depends on.
- The curve is a plain sequence indexed by position; pandas' label-based
  `pnl[i]` is read as positional indexing.
- Index 0: the source sets `hwm[0] = 0` and starts the loop at 1, so
  `drawdown[0]` and `duration[0]` are never assigned and stay NaN. The model
  fixes both to 0, which is what the recurrence evidently intends. A
  consequence, proved as `FirstValueIgnored`, is that `pnl[0]` influences no
  output at all.
- An empty curve gives an empty Series and undefined (`None`) maxima, as
  pandas gives NaN for the maximum of an empty Series.

## Model

| member | source | states |
|---|---|---|
| Extrema.Larger | performance.py:40 | the two-argument max is at least both arguments and is one of them |
| Extrema.Max | performance.py:44 | the maximum of a non-empty Series without NaN bounds every entry and is one of them |
| Extrema.MaxOrNone | performance.py:44 | the maximum of a Series without NaN is undefined (NaN) exactly when the Series is empty, and otherwise is its greatest entry |
| Drawdowns.DrawdownSeries | performance.py:35-41 | the drawdown Series has one entry per entry of the curve's index |
| Drawdowns.DurationSeries | performance.py:35-42 | the duration Series has one entry per entry of the curve's index |
| Drawdowns.MaxDrawdown | performance.py:44 | the maximum drawdown is undefined exactly for an empty curve |
| Drawdowns.MaxDuration | performance.py:44 | the maximum duration is undefined exactly for an empty curve |
| Drawdowns.Duration | performance.py:42 | the duration at index i is a natural number no larger than i |
| Drawdowns.HwmMonotone | performance.py:39-40 | the high-water mark never decreases: hwm[i] <= hwm[j] whenever i <= j |
| Drawdowns.HwmIsRunningMax | performance.py:32-40 | the high-water mark is at least 0 and at least every pnl[k] with 1 <= k <= i, and is 0 or one of those values |
| Drawdowns.HwmIsPrefixMax | performance.py:32-40 | the high-water mark at i equals the maximum of 0, pnl[1], ..., pnl[i] |
| Drawdowns.DrawdownAtMark | performance.py:40-41 | drawdown is never negative, and from index 1 on it is 0 exactly when pnl[i] equals the high-water mark |
| Drawdowns.DrawdownZeroAtNewHigh | performance.py:39-41 | from index 1 on, drawdown is 0 exactly when pnl[i] is non-negative and at least every value since index 1 |
| Drawdowns.DrawdownIsDeepestDecline | performance.py:39-41 | the drawdown at b bounds every decline pnl[a] - pnl[b] (1 <= a <= b) and the decline -pnl[b] from the initial mark, and equals one of them |
| Drawdowns.DurationRecurrence | performance.py:42 | duration is 0 exactly when drawdown is 0, and otherwise one more than the previous duration |
| Drawdowns.DurationCountsRun | performance.py:42 | the duration at i is the length of the run of positive drawdowns ending at i: all of the last d drawdowns are positive and the one before them is 0 |
| Drawdowns.RunWithinDuration | performance.py:42 | every run of positive drawdowns a..b is no longer than the duration at b |
| Drawdowns.FirstValueIgnored | performance.py:39-42 | two curves that agree from index 1 on have the same high-water marks, drawdowns and durations, so pnl[0] influences nothing |
| Drawdowns.MaxDrawdownIsLargestDecline | performance.py:39-44 | for a non-empty curve the maximum drawdown is defined, is at least 0, bounds every peak-to-trough decline and every decline from the initial mark 0, and is one of them or 0 |
| Drawdowns.MaxDurationIsLongestRun | performance.py:42-44 | for a non-empty curve the maximum duration is defined, bounds the length of every run of positive drawdowns, and is 0 or the length of a maximal such run |
| Drawdowns.WorkedExample | performance.py:32-44 | the curve 0,-5,-3,-10,2 has high-water marks 0,0,0,0,2, drawdowns 0,5,3,10,0, durations 0,1,2,3,0, maximum drawdown 10 and maximum duration 3 |
| Performance.DrawdownPass | performance.py:32-42 | the loop yields drawdown and duration Series as long as the input whose every entry equals the recursive specification |
| Performance.SeriesMax | performance.py:44 | the scanned maximum of a Series is undefined exactly when it is empty, otherwise bounds every entry and is one of them, and equals MaxOrNone of the Series |
| Performance.CreateDrawdowns | performance.py:17-44 | the drawdown Series has one entry per input entry and matches the specification; both maxima are undefined exactly for an empty curve, otherwise bound and attain the drawdowns and durations, and equal MaxDrawdown and MaxDuration of the specification |
| NanDurations.DurationAsWritten | performance.py:36-42 | as written, the duration entry is NaN exactly while every drawdown since index 1 is positive, and wherever it is a number it equals the corrected duration |
| NanDurations.MaxSkippingNaN | performance.py:44 | the NaN-skipping maximum is NaN exactly when every entry is NaN, and otherwise bounds every numeric entry and is one of them |
| NanDurations.AsWrittenLosesLeadingRun | performance.py:36-44 | on the curve 0,-5,-3,-10,2 the source's maximum duration is 0 while the corrected maximum is 3 |
| NanDurations.AllNaNIffNoRecovery | performance.py:36-42 | as written, every duration entry is NaN exactly when the curve never gets back to its high-water mark after index 0 |
| NanDurations.DurationSeriesAsWritten | performance.py:36-42 | the duration Series as create_drawdowns builds it has one entry per entry of the curve's index |
| NanDurations.MaxDurationAsWritten | performance.py:36-44 | the source's maximum duration is NaN exactly when the curve never gets back to its high-water mark after index 0 |
| NanDurations.AsWrittenLosesUnrecoveredRun | performance.py:36-44 | on the curve 0,-1,-2 the source's maximum duration is NaN while the corrected maximum is 2 |
| NanDurations.DrawdownAsWritten | performance.py:36-41 | as written, the drawdown entry is NaN exactly at index 0 and elsewhere equals the model's drawdown |
| NanDurations.DrawdownSeriesAsWritten | performance.py:36-41 | the drawdown Series as create_drawdowns builds it has one entry per entry of the curve's index |
| NanDurations.MaxDrawdownAsWritten | performance.py:36-44 | the source's maximum drawdown is NaN exactly for curves of fewer than two entries |
| NanDurations.AsWrittenMaxDrawdownAgrees | performance.py:36-44 | for curves of two or more entries the source's maximum drawdown, which skips the NaN at index 0, equals the model's maximum drawdown |
| NanDurations.NonNegativeStartAgrees | performance.py:32-44 | when pnl[1] is not negative (the curve does not open below zero), the source's maximum duration equals the corrected one |
| NanDurations.AsWrittenLosesSingleEntry | performance.py:36-44 | on the one-element curve 7 the source's maximum duration is NaN while the corrected maximum is 0 |
| NanDurations.DiscrepancyNeeds | performance.py:32-44 | whenever the source's maximum duration differs from the corrected one, the curve has a single entry or has two or more entries with pnl[1] < 0 |
| NanDurations.AsWrittenNeverExceeds | performance.py:42-44 | whenever the source's maximum duration is a number, the corrected maximum is defined and at least as large |

## Left out

- `create_sharpe_ratio` (performance.py:6-15): a square root, a mean and a standard deviation over floats, with inf/NaN from NumPy when the deviation is zero; this is floating-point numerics, not exact logic.
- data.py: `DataHandler` is an abstract interface whose methods only raise `NotImplementedError`; there is no replay or forward-fill logic in it to model.
- portfolio.py: holds only imports and comments; there is no cash, position or fill logic in it to model.
- The event module (market, order and fill events) is not part of this model; nothing of it appears in the modelled code.
- Floating point: PnL values are exact integers, so float rounding of `hwm[i] - pnl[i]` is not modelled (for finite floats the difference is zero exactly when the operands are equal, so the zero test behaves the same). Non-finite entries are not modelled either: in the source a NaN entry leaves `max(hwm[i-1], nan)` at the previous mark, makes `drawdown[i]` NaN, and since `nan == 0` is false the duration keeps counting through it; infinite entries are likewise outside the integer model.
- pandas mechanics: Series construction, label-based indexing and index objects are not modelled; the curve is a positional sequence.
- Performance.CreateDrawdowns: returns 0 rather than NaN at index 0 of the drawdown Series, and so a maximum drawdown of 0 rather than NaN for a one-element curve; this is the index-0 convention above; for longer curves the maximum is the same either way, as NanDurations.AsWrittenMaxDrawdownAgrees proves.
- Performance.CreateDrawdowns: returns the maximum duration of the corrected duration Series, not the NaN-affected one; the as-written value is modelled separately by NanDurations.MaxSkippingNaN over NanDurations.DurationAsWritten.

## Findings

| source | as written | input that shows it | evidently intended | confidence | as-written member | corrected member |
|---|---|---|---|---|---|---|
| performance.py:36-44 | `duration[0]` is never assigned and stays NaN, so `duration[i-1] + 1` is NaN throughout a drawdown that starts at index 1, and `duration.max()` skips those NaN entries, so the leading run is lost and a curve that never gets back to its mark gets a NaN maximum (NanDurations.AsWrittenLosesUnrecoveredRun: pnl = [0, -1, -2] gives NaN instead of 2); this happens only when the curve has a single entry (NanDurations.AsWrittenLosesSingleEntry: pnl = [7] gives NaN instead of 0) or has two or more entries with pnl[1] < 0, a curve that opens below zero, since otherwise index 1 is at its mark and every later duration is a number (NanDurations.NonNegativeStartAgrees, NanDurations.DiscrepancyNeeds) | pnl = [0, -5, -3, -10, 2]: the durations are NaN, NaN, NaN, NaN, 0 and the reported maximum duration is 0 | durations 0, 1, 2, 3, 0 and maximum duration 3, the length of the longest run of positive drawdowns | high; not executed | NanDurations.AsWrittenLosesLeadingRun | Drawdowns.MaxDurationIsLongestRun |

=== FILE: drawdowns.dfy ===
/** The functional specification of `create_drawdowns` in performance.py.

    The input `pnl` is the cumulative profit-and-loss (or equity) curve,
    indexed positionally. Index 0 is special: the high-water mark starts at 0
    there and the pass begins at index 1, so `pnl[0]` influences nothing.
    The source leaves `drawdown[0]` and `duration[0]` unassigned (NaN); this
    model fixes both to 0 (module NanDurations models the NaN behaviour). */
module Drawdowns {
  import opened Options
  import opened Extrema

  /** The high-water mark at index `i`: 0 at index 0, then the larger of the
      previous mark and the current value. */
  function Hwm(pnl: seq<int>, i: nat): (h: int)
    requires i < |pnl|
  {
    if i == 0 then 0 else Larger(Hwm(pnl, i - 1), pnl[i])
  }

  /** The distance of `pnl[i]` below the high-water mark (0 at index 0). */
  function Drawdown(pnl: seq<int>, i: nat): (dd: int)
    requires i < |pnl|
  {
    if i == 0 then 0 else Hwm(pnl, i) - pnl[i]
  }

  /** The drawdown duration at index `i`: reset to 0 when the drawdown is 0,
      one more than the previous duration otherwise. It never exceeds the
      number of steps taken so far. */
  function Duration(pnl: seq<int>, i: nat): (d: nat)
    requires i < |pnl|
    ensures d <= i
  {
    if i == 0 || Drawdown(pnl, i) == 0 then 0 else Duration(pnl, i - 1) + 1
  }

  /** The drawdown Series, one entry per input entry. */
  function DrawdownSeries(pnl: seq<int>): (series: seq<int>)
    ensures |series| == |pnl|
  {
    seq(|pnl|, i requires 0 <= i < |pnl| => Drawdown(pnl, i))
  }

  /** The duration Series, one entry per input entry. */
  function DurationSeries(pnl: seq<int>): (series: seq<int>)
    ensures |series| == |pnl|
  {
    seq(|pnl|, i requires 0 <= i < |pnl| => Duration(pnl, i))
  }

  /** The maximum drawdown; undefined for an empty curve. */
  function MaxDrawdown(pnl: seq<int>): (m: Option<int>)
    ensures m.None? <==> |pnl| == 0
  {
    MaxOrNone(DrawdownSeries(pnl))
  }

  /** The maximum drawdown duration; undefined for an empty curve. */
  function MaxDuration(pnl: seq<int>): (m: Option<int>)
    ensures m.None? <==> |pnl| == 0
  {
    MaxOrNone(DurationSeries(pnl))
  }

  // ---------------------------------------------------------------------
  // High-water mark

  /** The high-water mark never decreases. */
  lemma {:induction false} HwmMonotone(pnl: seq<int>, i: nat, j: nat)
    requires i <= j < |pnl|
    ensures Hwm(pnl, i) <= Hwm(pnl, j)
  {
    if i < j {
      HwmMonotone(pnl, i, j - 1);
    }
  }

  /** The high-water mark is the running maximum of 0 and `pnl[1..i]`: it is
      non-negative, dominates every value seen since index 1, and is either 0
      or one of those values. */
  lemma {:induction false} HwmIsRunningMax(pnl: seq<int>, i: nat)
    requires i < |pnl|
    ensures 0 <= Hwm(pnl, i)
    ensures forall k :: 1 <= k <= i ==> pnl[k] <= Hwm(pnl, i)
    ensures Hwm(pnl, i) == 0 || exists k :: 1 <= k <= i && pnl[k] == Hwm(pnl, i)
  {
    if i > 0 {
      HwmIsRunningMax(pnl, i - 1);
      if Hwm(pnl, i) != 0 && Hwm(pnl, i) != pnl[i] {
        assert Hwm(pnl, i) == Hwm(pnl, i - 1);
        var k :| 1 <= k <= i - 1 && pnl[k] == Hwm(pnl, i - 1);
      }
    }
  }

  /** The high-water mark equals the maximum of the sequence `[0] + pnl[1..i]`,
      an independent definition that does not use the recurrence. */
  lemma HwmIsPrefixMax(pnl: seq<int>, i: nat)
    requires i < |pnl|
    ensures Hwm(pnl, i) == Max([0] + pnl[1..i + 1])
  {
    var s := [0] + pnl[1..i + 1];
    HwmIsRunningMax(pnl, i);
    forall k | 0 <= k < |s|
      ensures s[k] <= Hwm(pnl, i)
    {
      if k > 0 {
        assert s[k] == pnl[k];
      }
    }
    if Hwm(pnl, i) == 0 {
      assert s[0] == Hwm(pnl, i);
    } else {
      var k :| 1 <= k <= i && pnl[k] == Hwm(pnl, i);
      assert s[k] == pnl[k];
    }
    MaxUnique(s, Hwm(pnl, i));
  }

  // ---------------------------------------------------------------------
  // Drawdown

  /** Drawdown is never negative, and from index 1 on it is zero exactly when
      the curve sits at its high-water mark. */
  lemma {:induction false} DrawdownAtMark(pnl: seq<int>, i: nat)
    requires i < |pnl|
    ensures 0 <= Drawdown(pnl, i)
    ensures 1 <= i ==> (Drawdown(pnl, i) == 0 <==> pnl[i] == Hwm(pnl, i))
  {
    HwmIsRunningMax(pnl, i);
  }

  /** From index 1 on, the drawdown is zero exactly when `pnl[i]` is a new
      high: not negative and at least every value seen since index 1. */
  lemma DrawdownZeroAtNewHigh(pnl: seq<int>, i: nat)
    requires 1 <= i < |pnl|
    ensures Drawdown(pnl, i) == 0 <==>
            (0 <= pnl[i] && forall k :: 1 <= k <= i ==> pnl[k] <= pnl[i])
  {
    HwmIsRunningMax(pnl, i);
    if 0 <= pnl[i] && forall k :: 1 <= k <= i ==> pnl[k] <= pnl[i] {
      if Hwm(pnl, i) != 0 {
        var k :| 1 <= k <= i && pnl[k] == Hwm(pnl, i);
      }
    }
  }

  /** The drawdown at `b` is the deepest decline into `b`: from any earlier
      value `pnl[a]` (1 <= a <= b) or from the initial mark 0, and it is
      attained by one of those. */
  lemma DrawdownIsDeepestDecline(pnl: seq<int>, b: nat)
    requires 1 <= b < |pnl|
    ensures -pnl[b] <= Drawdown(pnl, b)
    ensures forall a :: 1 <= a <= b ==> pnl[a] - pnl[b] <= Drawdown(pnl, b)
    ensures Drawdown(pnl, b) == -pnl[b] ||
            exists a :: 1 <= a <= b && Drawdown(pnl, b) == pnl[a] - pnl[b]
  {
    HwmIsRunningMax(pnl, b);
    if Hwm(pnl, b) != 0 {
      var a :| 1 <= a <= b && pnl[a] == Hwm(pnl, b);
      assert Drawdown(pnl, b) == pnl[a] - pnl[b];
    }
  }

  // ---------------------------------------------------------------------
  // Duration

  /** The duration recurrence: zero exactly when the drawdown is zero, and
      otherwise one more than the previous duration. */
  lemma DurationRecurrence(pnl: seq<int>, i: nat)
    requires i < |pnl|
    ensures Duration(pnl, i) == 0 <==> Drawdown(pnl, i) == 0
    ensures 1 <= i && Drawdown(pnl, i) != 0 ==> Duration(pnl, i) == Duration(pnl, i - 1) + 1
  {
  }

  /** The duration at `i` counts the consecutive non-zero drawdowns ending at
      `i`: every index of that run has a positive drawdown, and the index just
      before the run has drawdown 0. */
  lemma {:induction false} DurationCountsRun(pnl: seq<int>, i: nat)
    requires i < |pnl|
    ensures forall k :: i - Duration(pnl, i) < k <= i ==> Drawdown(pnl, k) > 0
    ensures Drawdown(pnl, i - Duration(pnl, i)) == 0
  {
    DrawdownAtMark(pnl, i);
    if i > 0 && Drawdown(pnl, i) != 0 {
      DurationCountsRun(pnl, i - 1);
    }
  }

  /** Every index of `a..b` (from index 1 on) has a positive drawdown. */
  predicate InDrawdown(pnl: seq<int>, a: int, b: int)
  {
    1 <= a <= b < |pnl| && forall k :: a <= k <= b ==> Drawdown(pnl, k) > 0
  }

  /** Any run of positive drawdowns `pnl[a..b]` is no longer than the
      duration at its last index. */
  lemma {:induction false} RunWithinDuration(pnl: seq<int>, a: nat, b: nat)
    requires InDrawdown(pnl, a, b)
    ensures b - a + 1 <= Duration(pnl, b)
  {
    if a < b {
      RunWithinDuration(pnl, a, b - 1);
    }
  }

  // ---------------------------------------------------------------------
  // Index 0

  /** `pnl[0]` never influences any output: two curves that agree from
      index 1 on have the same high-water marks, drawdowns and durations. */
  lemma {:induction false} FirstValueIgnored(pnl: seq<int>, other: seq<int>, i: nat)
    requires |pnl| == |other|
    requires forall k :: 1 <= k < |pnl| ==> pnl[k] == other[k]
    requires i < |pnl|
    ensures Hwm(pnl, i) == Hwm(other, i)
    ensures Drawdown(pnl, i) == Drawdown(other, i)
    ensures Duration(pnl, i) == Duration(other, i)
  {
    if i > 0 {
      FirstValueIgnored(pnl, other, i - 1);
    }
  }

  // ---------------------------------------------------------------------
  // Maxima

  /** The maximum drawdown is the largest peak-to-trough decline of the
      curve, where a peak is any value from index 1 on or the initial mark 0:
      it bounds every such decline and is one of them (or 0). */
  lemma MaxDrawdownIsLargestDecline(pnl: seq<int>)
    requires |pnl| > 0
    ensures MaxDrawdown(pnl).Some?
    ensures var m := MaxDrawdown(pnl).value;
      && 0 <= m
      && (forall b :: 1 <= b < |pnl| ==> -pnl[b] <= m)
      && (forall a, b :: 1 <= a <= b < |pnl| ==> pnl[a] - pnl[b] <= m)
      && (m == 0
          || (exists b :: 1 <= b < |pnl| && m == -pnl[b])
          || (exists a, b :: 1 <= a <= b < |pnl| && m == pnl[a] - pnl[b]))
  {
    var s := DrawdownSeries(pnl);
    var m := MaxDrawdown(pnl).value;
    assert s[0] == 0;
    forall b | 1 <= b < |pnl|
      ensures -pnl[b] <= m
      ensures forall a :: 1 <= a <= b ==> pnl[a] - pnl[b] <= m
    {
      DrawdownIsDeepestDecline(pnl, b);
      assert s[b] == Drawdown(pnl, b);
    }
    var j :| 0 <= j < |s| && s[j] == m;
    if j > 0 {
      DrawdownIsDeepestDecline(pnl, j);
    }
  }

  /** The maximum duration is the length of the longest run of consecutive
      positive drawdowns: no such run is longer, and one run is exactly that
      long (or the maximum is 0). */
  lemma MaxDurationIsLongestRun(pnl: seq<int>)
    requires |pnl| > 0
    ensures MaxDuration(pnl).Some?
    ensures var m := MaxDuration(pnl).value;
      && (forall a, b :: InDrawdown(pnl, a, b) ==> b - a + 1 <= m)
      && (m == 0
          || exists a, b :: InDrawdown(pnl, a, b) && b - a + 1 == m && Drawdown(pnl, a - 1) == 0)
  {
    var s := DurationSeries(pnl);
    var m := MaxDuration(pnl).value;
    forall a, b | InDrawdown(pnl, a, b)
      ensures b - a + 1 <= m
    {
      RunWithinDuration(pnl, a, b);
      assert s[b] == Duration(pnl, b);
    }
    var j :| 0 <= j < |s| && s[j] == m;
    if m != 0 {
      DurationCountsRun(pnl, j);
      var a := j - m + 1;
      assert InDrawdown(pnl, a, j);
      assert Drawdown(pnl, a - 1) == 0;
    }
  }

  // ---------------------------------------------------------------------
  // Worked example

  /** A curve that falls for three steps and then makes a new high. */
  const ExampleCurve: seq<int> := [0, -5, -3, -10, 2]

  /** The worked example: high-water marks 0,0,0,0,2, drawdowns 0,5,3,10,0,
      durations 0,1,2,3,0, maximum drawdown 10 and maximum duration 3. */
  lemma WorkedExample()
    ensures forall i :: 0 <= i < 4 ==> Hwm(ExampleCurve, i) == 0
    ensures Hwm(ExampleCurve, 4) == 2
    ensures DrawdownSeries(ExampleCurve) == [0, 5, 3, 10, 0]
    ensures DurationSeries(ExampleCurve) == [0, 1, 2, 3, 0]
    ensures MaxDrawdown(ExampleCurve) == Some(10)
    ensures MaxDuration(ExampleCurve) == Some(3)
  {
    var p := ExampleCurve;
    assert Hwm(p, 4) == 2;
    assert DrawdownSeries(p) == [0, 5, 3, 10, 0];
    assert DurationSeries(p) == [0, 1, 2, 3, 0];
    assert DrawdownSeries(p)[3] == 10;
    MaxUnique(DrawdownSeries(p), 10);
    assert DurationSeries(p)[3] == 3;
    MaxUnique(DurationSeries(p), 3);
  }

}

=== FILE: extrema.dfy ===
/** Maxima over integers and integer sequences, as used by the running
    high-water mark (`max(hwm[i-1], pnl[i])`) and by pandas' `Series.max()`. */
module Extrema {
  import opened Options

  /** The larger of two integers (Python's two-argument `max`). */
  function Larger(a: int, b: int): (r: int)
    ensures a <= r && b <= r
    ensures r == a || r == b
  {
    if a < b then b else a
  }

  /** The greatest element of a non-empty sequence: an upper bound of every
      element that is itself one of the elements. */
  function Max(s: seq<int>): (m: int)
    requires |s| > 0
    ensures forall k :: 0 <= k < |s| ==> s[k] <= m
    ensures exists k :: 0 <= k < |s| && s[k] == m
  {
    if |s| == 1 then s[0]
    else
      var rest := Max(s[..|s| - 1]);
      assert forall k :: 0 <= k < |s| - 1 ==> s[..|s| - 1][k] == s[k];
      Larger(rest, s[|s| - 1])
  }

  /** A value that bounds every element and is attained is the maximum. */
  lemma MaxUnique(s: seq<int>, m: int)
    requires |s| > 0
    requires forall k :: 0 <= k < |s| ==> s[k] <= m
    requires exists k :: 0 <= k < |s| && s[k] == m
    ensures Max(s) == m
  {
    var j :| 0 <= j < |s| && s[j] == m;
    var i :| 0 <= i < |s| && s[i] == Max(s);
    assert s[i] <= m;
    assert s[j] <= Max(s);
  }

  /** `Series.max()` over a Series without NaN entries: undefined (NaN, here
      `None`) exactly when the Series is empty, otherwise the greatest entry. */
  function MaxOrNone(s: seq<int>): (r: Option<int>)
    ensures r.None? <==> |s| == 0
    ensures r.Some? ==> r.value == Max(s)
  {
    if |s| == 0 then None else Some(Max(s))
  }

}

=== FILE: nan_durations.dfy ===
/** `create_drawdowns` as written: the drawdown and duration Series start out
    NaN-filled and index 0 is never assigned, so `drawdown[0]` is NaN,
    `duration[i-1] + 1` stays NaN until the first zero drawdown, and
    `Series.max()` skips NaN entries. `None` stands for NaN. */
module NanDurations {
  import opened Options
  import Extrema
  import opened Drawdowns

  /** The duration entry as the source computes it: NaN at index 0 and
      throughout the leading run of positive drawdowns; wherever it is a
      number, it is the corrected duration. */
  function DurationAsWritten(pnl: seq<int>, i: nat): (r: Option<int>)
    requires i < |pnl|
    ensures r.None? <==> forall k :: 1 <= k <= i ==> Drawdown(pnl, k) > 0
    ensures r.Some? ==> r.value == Duration(pnl, i)
  {
    if i == 0 then None
    else if Drawdown(pnl, i) == 0 then Some(0)
    else match DurationAsWritten(pnl, i - 1)
      case None => None
      case Some(d) => Some(d + 1)
  }

  /** `Series.max()` with NaN skipping: NaN when every entry is NaN,
      otherwise the greatest number. */
  function MaxSkippingNaN(s: seq<Option<int>>): (r: Option<int>)
    ensures r.None? <==> forall k :: 0 <= k < |s| ==> s[k].None?
    ensures r.Some? ==>
      && (forall k :: 0 <= k < |s| && s[k].Some? ==> s[k].value <= r.value)
      && (exists k :: 0 <= k < |s| && s[k] == Some(r.value))
  {
    if |s| == 0 then None
    else
      var rest := MaxSkippingNaN(s[..|s| - 1]);
      assert forall k :: 0 <= k < |s| - 1 ==> s[..|s| - 1][k] == s[k];
      var last := s[|s| - 1];
      match (rest, last)
      case (None, _) => last
      case (Some(a), None) => rest
      case (Some(a), Some(b)) => if a < b then last else rest
  }

  /** The duration Series the source builds. */
  function DurationSeriesAsWritten(pnl: seq<int>): (series: seq<Option<int>>)
    ensures |series| == |pnl|
  {
    seq(|pnl|, i requires 0 <= i < |pnl| => DurationAsWritten(pnl, i))
  }

  /** The maximum duration the source returns: NaN exactly when the curve
      never gets back to its high-water mark after index 0. */
  function MaxDurationAsWritten(pnl: seq<int>): (m: Option<int>)
    ensures m.None? <==> forall k :: 1 <= k < |pnl| ==> Drawdown(pnl, k) > 0
  {
    AllNaNIffNoRecovery(pnl);
    MaxSkippingNaN(DurationSeriesAsWritten(pnl))
  }

  /** Every duration entry the source computes is NaN exactly when the curve
      never gets back to its high-water mark after index 0. */
  lemma AllNaNIffNoRecovery(pnl: seq<int>)
    ensures var s := DurationSeriesAsWritten(pnl);
      (forall k :: 0 <= k < |s| ==> s[k].None?) <==>
      (forall k :: 1 <= k < |pnl| ==> Drawdown(pnl, k) > 0)
  {
    var s := DurationSeriesAsWritten(pnl);
    if exists k :: 1 <= k < |pnl| && Drawdown(pnl, k) == 0 {
      var k :| 1 <= k < |pnl| && Drawdown(pnl, k) == 0;
      assert s[k].Some?;
    } else {
      forall k | 0 <= k < |s|
        ensures s[k].None?
      {
        DrawdownAtMark(pnl, k);
      }
    }
  }

  /** The drawdown entry as the source computes it: NaN at index 0, and the
      distance below the high-water mark everywhere else. */
  function DrawdownAsWritten(pnl: seq<int>, i: nat): (r: Option<int>)
    requires i < |pnl|
    ensures r.None? <==> i == 0
    ensures r.Some? ==> r.value == Drawdown(pnl, i)
  {
    if i == 0 then None else Some(Hwm(pnl, i) - pnl[i])
  }

  /** The drawdown Series the source builds. */
  function DrawdownSeriesAsWritten(pnl: seq<int>): (series: seq<Option<int>>)
    ensures |series| == |pnl|
  {
    seq(|pnl|, i requires 0 <= i < |pnl| => DrawdownAsWritten(pnl, i))
  }

  /** The maximum drawdown the source returns: NaN for curves of fewer than
      two entries, since no entry of their drawdown Series is assigned. */
  function MaxDrawdownAsWritten(pnl: seq<int>): (m: Option<int>)
    ensures m.None? <==> |pnl| <= 1
  {
    var s := DrawdownSeriesAsWritten(pnl);
    assert |pnl| >= 2 ==> s[1].Some?;
    MaxSkippingNaN(s)
  }

  /** From two entries on, the NaN at index 0 does not change the maximum
      drawdown: the source returns the same value as the model, whose
      `drawdown[0]` is 0. */
  lemma AsWrittenMaxDrawdownAgrees(pnl: seq<int>)
    requires |pnl| >= 2
    ensures MaxDrawdownAsWritten(pnl) == MaxDrawdown(pnl)
  {
    var s := DrawdownSeriesAsWritten(pnl);
    var m := MaxSkippingNaN(s).value;
    var t := DrawdownSeries(pnl);
    DrawdownAtMark(pnl, 1);
    assert s[1] == Some(Drawdown(pnl, 1));
    forall k | 0 <= k < |t|
      ensures t[k] <= m
    {
      if k > 0 {
        assert s[k] == Some(t[k]);
      }
    }
    var j :| 0 <= j < |s| && s[j] == Some(m);
    assert t[j] == m;
    Extrema.MaxUnique(t, m);
  }

  /** On the worked example the source reports a maximum duration of 0: the
      three-step drawdown from index 1 to 3 is all NaN, and the only number
      is the 0 at index 4. */
  lemma AsWrittenLosesLeadingRun()
    ensures MaxDurationAsWritten(ExampleCurve) == Some(0)
    ensures MaxDuration(ExampleCurve) == Some(3)
  {
    var p := ExampleCurve;
    assert Drawdown(p, 1) == 5 && Drawdown(p, 2) == 3 && Drawdown(p, 3) == 10 && Drawdown(p, 4) == 0;
    var s := DurationSeriesAsWritten(p);
    assert s == [None, None, None, None, Some(0)];
    assert Duration(p, 3) == 3;
    var t := DurationSeries(p);
    assert t == [0, 1, 2, 3, 0];
    assert Extrema.Max(t) == 3 by {
      Extrema.MaxUnique(t, 3);
    }
  }

  /** The source never over-reports: whenever its maximum duration is a
      number, it is at most the corrected maximum. */
  lemma AsWrittenNeverExceeds(pnl: seq<int>)
    requires MaxDurationAsWritten(pnl).Some?
    ensures MaxDuration(pnl).Some?
    ensures MaxDurationAsWritten(pnl).value <= MaxDuration(pnl).value
  {
    var s := DurationSeriesAsWritten(pnl);
    var k :| 0 <= k < |s| && s[k] == Some(MaxDurationAsWritten(pnl).value);
    var t := DurationSeries(pnl);
    assert t[k] == Duration(pnl, k);
  }

  /** A curve that falls and never recovers. */
  const FallingCurve: seq<int> := [0, -1, -2]

  /** On a curve that never gets back to its high-water mark, the source's
      maximum duration is NaN, while the corrected maximum is the length of
      the drawdown. */
  lemma AsWrittenLosesUnrecoveredRun()
    ensures MaxDurationAsWritten(FallingCurve) == None
    ensures MaxDuration(FallingCurve) == Some(2)
  {
    var p := FallingCurve;
    assert Drawdown(p, 1) == 1 && Drawdown(p, 2) == 2;
    var t := DurationSeries(p);
    assert t == [0, 1, 2];
    assert t[2] == 2;
    Extrema.MaxUnique(t, 2);
  }

  /** The leading run is lost only on a curve that opens below zero: when
      `pnl[1]` is not negative, index 1 is at its high-water mark, every later
      duration is a number, and the source's maximum duration is the
      corrected one. */
  lemma NonNegativeStartAgrees(pnl: seq<int>)
    requires |pnl| >= 2 && pnl[1] >= 0
    ensures MaxDurationAsWritten(pnl) == MaxDuration(pnl)
  {
    assert Hwm(pnl, 1) == pnl[1];
    assert Drawdown(pnl, 1) == 0;
    var s := DurationSeriesAsWritten(pnl);
    var t := DurationSeries(pnl);
    assert s[1] == Some(0);
    var m := MaxSkippingNaN(s).value;
    forall k | 0 <= k < |t|
      ensures t[k] <= m
    {
      if k > 0 {
        assert DurationAsWritten(pnl, k).Some?;
        assert s[k] == Some(t[k]);
      }
    }
    var j :| 0 <= j < |s| && s[j] == Some(m);
    assert t[j] == m;
    Extrema.MaxUnique(t, m);
  }

  /** On a one-element curve the source's only duration entry is never
      assigned, so its maximum duration is NaN, while the corrected maximum
      is 0. */
  lemma AsWrittenLosesSingleEntry()
    ensures MaxDurationAsWritten([7]) == None
    ensures MaxDuration([7]) == Some(0)
  {
    var t := DurationSeries([7]);
    assert t == [0];
    assert t[0] == 0;
    Extrema.MaxUnique(t, 0);
  }

  /** The source's maximum duration differs from the corrected one only on
      a one-element curve, whose single entry is never assigned, or on a
      curve that opens below zero. */
  lemma DiscrepancyNeeds(pnl: seq<int>)
    requires MaxDurationAsWritten(pnl) != MaxDuration(pnl)
    ensures |pnl| == 1 || (|pnl| >= 2 && pnl[1] < 0)
  {
    if |pnl| >= 2 && pnl[1] >= 0 {
      NonNegativeStartAgrees(pnl);
    }
  }

}

=== FILE: option.dfy ===
/** An optional value. `None` stands for pandas' NaN: the maximum of an empty
    or all-NaN Series, and an entry of a Series that was created empty and
    never assigned. */
module Options {

  datatype Option<+T> = None | Some(value: T)

}

=== FILE: performance.dfy ===
/** `create_drawdowns` of performance.py as the single forward pass it is:
    a high-water-mark list grown one entry per step, drawdown and duration
    Series filled index by index, then the maxima of the two Series. */
module Performance {
  import opened Options
  import opened Extrema
  import opened Drawdowns

  /** The loop of `create_drawdowns`: fills the drawdown and duration Series
      of `pnl`, one entry per input entry, with index 0 fixed to 0. */
  method DrawdownPass(pnl: seq<int>) returns (drawdown: seq<int>, duration: seq<int>)
    ensures |drawdown| == |pnl| && |duration| == |pnl|
    ensures forall i :: 0 <= i < |pnl| ==> drawdown[i] == Drawdown(pnl, i)
    ensures forall i :: 0 <= i < |pnl| ==> duration[i] == Duration(pnl, i)
  {
    var n := |pnl|;
    if n == 0 {
      return [], [];
    }
    var hwm: seq<int> := [0];
    var dd := new int[n](_ => 0);
    var dur := new int[n](_ => 0);
    var i := 1;
    while i < n
      invariant 1 <= i <= n
      invariant |hwm| == i
      invariant forall k :: 0 <= k < i ==> hwm[k] == Hwm(pnl, k)
      invariant forall k :: 0 <= k < i ==> dd[k] == Drawdown(pnl, k)
      invariant forall k :: 0 <= k < i ==> dur[k] == Duration(pnl, k)
    {
      hwm := hwm + [Larger(hwm[i - 1], pnl[i])];
      dd[i] := hwm[i] - pnl[i];
      dur[i] := if dd[i] == 0 then 0 else dur[i - 1] + 1;
      i := i + 1;
    }
    drawdown, duration := dd[..], dur[..];
  }

  /** `Series.max()` as a scan: undefined for an empty Series, otherwise an
      entry that is at least every entry, which is the maximum `MaxOrNone`
      defines. */
  method SeriesMax(s: seq<int>) returns (r: Option<int>)
    ensures r.None? <==> |s| == 0
    ensures r.Some? ==>
      && (forall k :: 0 <= k < |s| ==> s[k] <= r.value)
      && (exists k :: 0 <= k < |s| && s[k] == r.value)
    ensures r == MaxOrNone(s)
  {
    if |s| == 0 {
      return None;
    }
    var m := s[0];
    var j := 1;
    while j < |s|
      invariant 1 <= j <= |s|
      invariant forall k :: 0 <= k < j ==> s[k] <= m
      invariant exists k :: 0 <= k < j && s[k] == m
    {
      m := Larger(m, s[j]);
      j := j + 1;
    }
    MaxUnique(s, m);
    r := Some(m);
  }

  /** Returns the drawdown Series, the maximum drawdown and the maximum
      duration of the cumulative PnL curve `pnl`. For an empty curve the
      Series is empty and both maxima are undefined; otherwise each maximum
      bounds its Series and is one of its entries, so the maxima are those of
      the specification, whose meaning `MaxDrawdownIsLargestDecline` and
      `MaxDurationIsLongestRun` state. */
  method CreateDrawdowns(pnl: seq<int>) returns (drawdown: seq<int>, maxDrawdown: Option<int>, maxDuration: Option<int>)
    ensures |drawdown| == |pnl|
    ensures forall i :: 0 <= i < |pnl| ==> drawdown[i] == Drawdown(pnl, i)
    ensures maxDrawdown.None? <==> |pnl| == 0
    ensures maxDuration.None? <==> |pnl| == 0
    ensures maxDrawdown.Some? ==>
      && (forall i :: 0 <= i < |pnl| ==> Drawdown(pnl, i) <= maxDrawdown.value)
      && (exists j :: 0 <= j < |pnl| && Drawdown(pnl, j) == maxDrawdown.value)
    ensures maxDuration.Some? ==>
      && (forall i :: 0 <= i < |pnl| ==> Duration(pnl, i) <= maxDuration.value)
      && (exists j :: 0 <= j < |pnl| && Duration(pnl, j) == maxDuration.value)
    ensures maxDrawdown == MaxDrawdown(pnl)
    ensures maxDuration == MaxDuration(pnl)
  {
    var duration;
    drawdown, duration := DrawdownPass(pnl);
    assert drawdown == DrawdownSeries(pnl);
    assert duration == DurationSeries(pnl);
    maxDrawdown := SeriesMax(drawdown);
    maxDuration := SeriesMax(duration);
    if |pnl| > 0 {
      var j :| 0 <= j < |drawdown| && drawdown[j] == maxDrawdown.value;
      assert Drawdown(pnl, j) == maxDrawdown.value;
      var j' :| 0 <= j' < |duration| && duration[j'] == maxDuration.value;
      assert Duration(pnl, j') == maxDuration.value;
    }
  }

}
